=== FILE: README.md ===
# mimic file pool, modelled in Dafny

mimic generates configuration files from in-memory objects. Its file pool
(`FilePool` in `files.go`) collects the rendered content of every generated
file under an output path, refuses to stage two files at the same path, puts
the rendered top-level comments (the "Generated by mimic. DO NOT EDIT."
marker, in practice) in front of every file, and finally writes everything
under an output directory in one pass.

This project models that pool:

- `paths.dfy`, module `Paths`: Go's `filepath.Base` on `/`-separated paths
  (the bare-name check), `filepath.Join` (the output key) and `filepath.Dir`
  (the directory the write pass creates), without the final `filepath.Clean`.
- `encoding.dfy`, module `Encoding`: the encoder capability, kept abstract.
  An `Encoder` is the outcome of draining its byte stream (`Drained(bytes)` or
  `ReadFailed(reason)`) plus a total comment renderer `encodeComment`.
  `Header` is the ordered concatenation of rendered comments.
- `disk.dfy`, module `Disk`: an abstract filesystem for the write pass. It
  holds a map from path to content, the set of existing directories, and a
  constant set of paths at which the operating system refuses to create a
  directory or open a file for writing. `MkdirAll` and `WriteFile` stand for
  `os.MkdirAll` and `os.WriteFile`; `MkdirAll` keeps the directories it
  created before reaching a refused one.
- `files.dfy`, module `Files`: the error taxonomy `PoolError`, the class
  `FilePool` with the fields `path`, `m` and `topLevelComments`, its methods
  `Add` and `Write`, the name check `CheckFileName`, the comment-rendering
  loop `RenderComments`, one step of the write pass `WriteEntry`, and the
  specification of the write pass (`Flushed`). Every fatal condition, on
  which mimic panics, is returned as `Fail(PoolError)`. The pool invariant
  `Valid` says every staged key is the pool path joined with a bare name.
  `StagingScenario`, `WriteToEmptyDisk` and `WriteScenario` are client methods. The scenarios run one pool
  rooted at `a/b` through two adds of `x.yaml` and a write under `/out`.

The bare-name check follows the code, not the wider reading "a name with a
separator is always refused". `filepath.Base("/")` is `"/"`, so the name
`"/"` passes the check at `files.go:36`, and so do `"."` and `".."`. The
empty name fails, because its base is `"."`. `Paths.Base` states this exactly:
its result equals its input if and only if the input is `"/"` or a non-empty
name without `/`.

## Model

| member | source | states |
|---|---|---|
| Paths.Base | files.go:36 | The base is always a bare name. It equals the input exactly when the input is "/" or a non-empty name with no separator, so those are the names the check lets through. |
| Paths.Join | files.go:53 | The joined path is empty exactly when every element is empty. |
| Paths.JoinSnoc | files.go:53 | Under the uncleaned join, appending the file name to the pool path adds exactly one separator and the name, or gives the name alone under an empty path. |
| Paths.JoinInjective | files.go:53-58 | Under the uncleaned join, two non-empty file names give the same output key under one pool path if and only if they are the same name. |
| Paths.JoinedNameSplits | files.go:36-53 | Under the uncleaned join, for a name with no separator the base of the output key is that name, and the directory of the key is the joined pool path, or "." when the path is empty. |
| Paths.Dir | files.go:69 | With no separator the directory is "."; when the last separator is the first character it is the root "/"; otherwise it is the text before the last separator, and no separator follows that one. |
| Paths.Ancestry | files.go:69 | The directories MkdirAll must have: the directory itself and every prefix of it that ends just before a separator (except the root), and nothing else: every member is the directory or such a prefix. |
| Encoding.HeaderAppend | files.go:45-50 | Rendering two lists of comments one after the other gives the concatenation of their headers. |
| Encoding.HeaderAt | files.go:47-49 | Each registered comment is rendered exactly once, after all earlier comments and before all later ones. |
| Encoding.FirstCommentLeads | files.go:45-50 | When comments are registered, staged content begins with the rendering of the first one. |
| Files.ProvenanceMarkerLeads | files.go:45-50 | When "Generated by mimic. DO NOT EDIT." is the first registered comment, every staged file begins with its rendering. |
| Files.CheckFileName | files.go:36 | A file name is accepted exactly when it is a bare name. |
| Files.RenderComments | files.go:46-49 | The appending loop returns the ordered concatenation of every rendered comment. |
| Files.FreshTarget | files.go:67-68 | Under the uncleaned join, a staged file not yet written has an output path that no written file has. |
| Files.FlushedStep | files.go:67-79 | Writing one more staged entry keeps the write-pass invariant. Every written entry sits at its target with its staged content, and every other file keeps its content. |
| Files.FlushIsDeterministic | files.go:66-79 | Under the uncleaned join, two completed write passes of one pool leave identical content at every target, whatever the filesystem held before. |
| Files.WriteEntry | files.go:67-78 | One entry: on success the file holds the content and its directory chain exists. On failure no file changes, only directories of that chain may have appeared, and the error is the directory with a refused missing ancestor or the refused file. It succeeds exactly when the target is not refused and no missing directory of its chain is, and it never creates a refused directory. |
| Files.FilePool.constructor | files.go:19-28 | A new pool has the given path and comments and nothing staged (the nil map). |
| Files.FilePool.Add | files.go:35-64 | A name that is not bare fails with InvalidFileName. A failed read fails with EncodingFailure. A key already staged fails with FilenameClash, whatever its content. Every failure leaves the map unchanged. Add succeeds exactly when none of these holds. Then the map is the old map plus one new key, the pool path joined with the name, mapped to the header followed by the bytes (the bytes alone when no comment is registered). Path and comments never change, and every key stays the pool path joined with a bare name. |
| Files.FilePool.Write | files.go:66-79 | Only staged entries are written, each with its staged content and its directory chain created. Other files are unchanged. The only new directories are on the chains of staged entries. Success means every entry was written. A failure stops the pass and names the directory or the target of a staged entry not yet written, which the filesystem refuses. The pass succeeds exactly when, for every staged entry, the target is not refused and no directory of its chain missing before the pass is refused. No refused directory is ever created. |
| Files.StagingScenario | files.go:35-64 | A pool at a/b with the comment "GEN" stages x.yaml as a/b/x.yaml with content "# GEN\nk: v": the first add passes, the second add of x.yaml fails with FilenameClash("a/b/x.yaml") and leaves that map as it was. |
| Files.WriteToEmptyDisk | files.go:66-79 | Writing any valid pool to an empty filesystem that refuses nothing succeeds, and the files are exactly the targets of the staged keys, each with its staged content and inside its created directory chain. |
| Files.WriteScenario | files.go:66-79 | Writing the staged a/b pool under /out to an empty filesystem succeeds and leaves exactly one file, /out/a/b/x.yaml, holding "# GEN\nk: v". |
| Disk.FileSystem.CreatedBy | files.go:69 | The directories MkdirAll leaves: all of the chain when no missing member is refused, and never a refused missing one. |
| Disk.FileSystem.MkdirAll | files.go:69 | Succeeds exactly when no missing directory of the chain is refused, and then the whole chain exists. On failure it keeps what it created above the refused directory, and that directory is still missing. It never creates a refused directory, and files never change. |
| Disk.FileSystem.WriteFile | files.go:76 | Replaces the whole file content. It fails, leaving the file as it was, when the path is refused or its directory is missing. |

## Left out

- `filepath.Clean`, which Go applies to the results of `Join` and `Dir`, is not modelled. Repeated separators and `.`/`..` elements stay in the keys as written. So the model does not show that the names `.`, `..` and `/` pass the bare-name check but resolve to the pool directory, its parent, or the pool directory again.
- Paths.JoinInjective: holds for the uncleaned join only. Under a non-empty pool path, `filepath.Clean` turns the names `.` and `/` into the same key, the pool path itself, so they do clash in Go. Under an empty pool path Go stages them as the distinct keys `.` and `/`, and the write pass then puts both at `outputDir` itself.
- Paths.JoinedNameSplits: holds for the uncleaned join only. Under `filepath.Clean` the name `..` names the parent of the pool path, not a file in it.
- Files.FreshTarget: holds for the uncleaned join only. In Go, distinct keys can clean to one target: under `out`, the keys `/x` and `x` both give `out/x`, and so does `../out/x`.
- Files.FlushIsDeterministic: holds for the uncleaned join only. In Go two keys can clean to one target, and the pass's unspecified order then decides which content stays there.
- Paths.Join: models Go's `filepath.Join` only up to cleaning (leading empty elements skipped, the rest separated by `/`).
- Paths.Dir: models Go's `filepath.Dir` without cleaning: the text before the last separator, `/` for a root-level file, `.` without a separator.
- The encoder's formats (YAML and others) and `io.ReadAll` are not modelled. An encoder is only the outcome of reading its stream and an arbitrary total comment renderer. Bytes are modelled as characters of a string.
- The nil-map lazy initialisation at `files.go:60-62` is not distinguishable from an empty map for reads or inserts, so the pool always holds a map, empty at first.
- The `Logger` field and the debug log line at `files.go:75` are logging only and are not modelled.
- Disk.FileSystem.WriteFile: a failure in the middle of writing, after Go's `os.WriteFile` has truncated the file, is not modelled. A failed write leaves the file as it was.
- Disk.FileSystem.MkdirAll: Go returns at once when the directory already exists, without looking at its ancestors. The model checks the missing ancestors instead; the two agree whenever every existing directory's ancestors exist, as on a real disk, and filesystem states that break this are not meant.
- File permissions (`0755`) and the real operating system are not modelled. Which paths fail is a constant set of refused paths in the abstract filesystem.
- The order in which Go iterates over the map in `write` is unspecified. The model picks an arbitrary remaining entry each time, and nothing proved depends on the order.
- The process abort done by `Panicf`/`PanicErr` is modelled as a returned `Fail(PoolError)`, and the message text is not modelled.
- Pushing and popping of the path stack, and creating pools, are done by the generator, which is not part of this model. The pool's path and comments are set by its constructor and never change, so `Valid` ties every key to the current path; with a changing path it would tie each key to the path at the time of its add.
- `projects/prom-remote-read-bench/main.go` only builds Kubernetes objects and calls `Add` once. It is not part of this model.
- Concurrency: the pool is used from one thread, and the model is sequential.

=== FILE: disk.dfy ===
/**
 * An abstract filesystem for the write pass: the files that exist with their
 * contents, the directories that exist, and the paths at which the operating
 * system refuses to create a directory or to open a file for writing
 * (permissions, a file standing where a directory should be). Which paths
 * are refused is decided outside the program, so it is a constant of the
 * filesystem.
 */
module Disk {

  import opened Paths

  class FileSystem {
    var files: map<string, string>
    var dirs: set<string>
    const refused: set<string>

    constructor (files: map<string, string>, dirs: set<string>, refused: set<string>)
      ensures this.files == files && this.dirs == dirs && this.refused == refused
    {
      this.files := files;
      this.dirs := dirs;
      this.refused := refused;
    }

    /**
     * The directories `os.MkdirAll(dir)` leaves behind: it creates the missing
     * ancestors of `dir` from the top down and stops at the first one that is
     * refused, so exactly the ancestors shorter than every refused missing
     * one exist afterwards, together with what existed before.
     */
    function CreatedBy(dir: string): (r: set<string>)
      reads this
      ensures r <= Ancestry(dir)
      ensures (Ancestry(dir) - dirs) !! refused ==> r == Ancestry(dir)
      ensures forall f :: f in Ancestry(dir) - dirs && f in refused ==> f !in r
    {
      set d | d in Ancestry(dir)
                && forall f :: f in Ancestry(dir) - dirs && f in refused ==> |d| < |f|
    }

    /**
     * `os.MkdirAll`: creates `dir` and every missing directory above it. It
     * fails when one of the missing ones is refused, keeping the ones it
     * created above that one. It never creates a refused directory.
     *
     * Go's `os.MkdirAll` returns at once when `dir` already exists, without
     * looking at its ancestors. The two agree on every filesystem whose
     * directories have all their ancestors, which is what a real disk
     * holds; `dirs` is meant to be such a set, and states with an existing
     * directory below a missing one are not meant.
     */
    method MkdirAll(dir: string) returns (ok: bool)
      modifies this
      ensures ok <==> (Ancestry(dir) - old(dirs)) !! refused
      ensures files == old(files)
      ensures dirs == old(dirs) + old(CreatedBy(dir))
      ensures ok ==> dirs == old(dirs) + Ancestry(dir)
      ensures !ok ==> old(dirs) <= dirs <= old(dirs) + Ancestry(dir) && !((Ancestry(dir) - dirs) !! refused)
      ensures (dirs - old(dirs)) !! refused
    {
      ok := (Ancestry(dir) - dirs) !! refused;
      dirs := dirs + CreatedBy(dir);
    }

    /**
     * `os.WriteFile`: replaces the whole content of `name`, creating it if
     * absent. It fails when `name` is refused or its directory does not
     * exist, and the file is then left as it was.
     */
    method WriteFile(name: string, data: string) returns (ok: bool)
      modifies this
      ensures ok <==> name !in refused && Dir(name) in dirs
      ensures dirs == old(dirs)
      ensures files == if ok then old(files)[name := data] else old(files)
    {
      ok := name !in refused && Dir(name) in dirs;
      if ok {
        files := files[name := data];
      }
    }
  }
}

=== FILE: encoding.dfy ===
/**
 * The encoder capability the file pool consumes, kept abstract: what reading
 * its byte stream to the end yields, and how it renders a free-text comment
 * in its format. Concrete formats (YAML and the rest) are not modelled.
 */
module Encoding {

  /** The outcome of draining an encoder's stream with `io.ReadAll`. */
  datatype Stream = Drained(bytes: string) | ReadFailed(reason: string)

  /** One encoder value: the stream it yields and its comment renderer. */
  datatype Encoder = Encoder(stream: Stream, encodeComment: string -> string)

  /** Every comment rendered by `render`, concatenated in registration order. */
  function Header(render: string -> string, comments: seq<string>): (r: string)
  {
    if comments == [] then "" else render(comments[0]) + Header(render, comments[1..])
  }

  /** The header of two lists of comments is the header of one, then of the other. */
  lemma {:induction false} HeaderAppend(render: string -> string, xs: seq<string>, ys: seq<string>)
    ensures Header(render, xs + ys) == Header(render, xs) + Header(render, ys)
  {
    if xs != [] {
      assert (xs + ys)[1..] == xs[1..] + ys;
      HeaderAppend(render, xs[1..], ys);
    } else {
      assert xs + ys == ys;
    }
  }

  /**
   * Each registered comment is rendered exactly once, at the position its
   * registration order gives it: after the renderings of all earlier
   * comments and before those of all later ones.
   */
  lemma HeaderAt(render: string -> string, comments: seq<string>, i: nat)
    requires i < |comments|
    ensures Header(render, comments)
         == Header(render, comments[..i]) + render(comments[i]) + Header(render, comments[i + 1..])
  {
    assert comments == comments[..i] + comments[i..];
    HeaderAppend(render, comments[..i], comments[i..]);
    assert comments[i..][1..] == comments[i + 1..];
  }

  /** Staged content starts with the rendering of the first registered comment. */
  lemma FirstCommentLeads(render: string -> string, comments: seq<string>, body: string)
    requires comments != []
    ensures var content := Header(render, comments) + body;
            |render(comments[0])| <= |content| && content[..|render(comments[0])|] == render(comments[0])
  {
  }
}

=== FILE: files.dfy ===
/**
 * The file pool: generated file contents staged in memory under output
 * paths, never overwriting one another, then flushed to a filesystem in one
 * write pass. Fatal conditions, on which mimic panics, are returned as a
 * `PoolError`.
 */
module Files {

  import opened Paths
  import opened Encoding
  import opened Disk

  /** The provenance comment generators register as a top-level comment. */
  const GeneratedComment: string := "Generated by mimic. DO NOT EDIT."

  datatype PoolError =
    | InvalidFileName(fileName: string)
    | EncodingFailure(reason: string)
    | FilenameClash(output: string)
    | DirectoryCreationFailure(dir: string)
    | FileWriteFailure(file: string)

  datatype Outcome = Pass | Fail(error: PoolError)

  /** Where the write pass puts the staged files `keys` under `outputDir`. */
  ghost function Targets(outputDir: string, keys: set<string>): (r: set<string>)
  {
    set k | k in keys :: Join([outputDir, k])
  }

  /** A file not yet written has a target no written file has. */
  lemma FreshTarget(outputDir: string, written: set<string>, file: string)
    requires "" !in written && file != "" && file !in written
    ensures Join([outputDir, file]) !in Targets(outputDir, written)
  {
    assert [outputDir] + [file] == [outputDir, file];
    forall k | k in written
      ensures Join([outputDir, k]) != Join([outputDir, file])
    {
      assert [outputDir] + [k] == [outputDir, k];
      JoinInjective([outputDir], k, file);
    }
  }

  /** Adding a file to a set adds its target to the set's targets. */
  lemma TargetsAdd(outputDir: string, written: set<string>, file: string)
    ensures Targets(outputDir, written + {file}) == Targets(outputDir, written) + {Join([outputDir, file])}
  {
  }

  /**
   * `after` is `before` with each file of `written` put at its target under
   * `outputDir`, holding the content `staged` gives it, and nothing else changed.
   */
  ghost predicate Flushed(outputDir: string, staged: map<string, string>, written: set<string>,
                          before: map<string, string>, after: map<string, string>)
  {
    && written <= staged.Keys
    && after.Keys == before.Keys + Targets(outputDir, written)
    && (forall k :: k in written ==> Join([outputDir, k]) in after && after[Join([outputDir, k])] == staged[k])
    && (forall p :: p in before && p !in Targets(outputDir, written) ==> after[p] == before[p])
  }

  /** Writing one more staged file keeps `Flushed`, with that file added to `written`. */
  lemma FlushedStep(outputDir: string, staged: map<string, string>, written: set<string>,
                    before: map<string, string>, after: map<string, string>, file: string)
    requires Flushed(outputDir, staged, written, before, after)
    requires "" !in staged && file in staged && file !in written
    ensures Flushed(outputDir, staged, written + {file}, before, after[Join([outputDir, file]) := staged[file]])
  {
    var out := Join([outputDir, file]);
    FreshTarget(outputDir, written, file);
    TargetsAdd(outputDir, written, file);
    var next := after[out := staged[file]];
    assert next.Keys == after.Keys + {out};
  }

  /** The name check of `Add`: a file name is accepted when `Base` leaves it unchanged. */
  method CheckFileName(fileName: string) returns (bare: bool)
    ensures bare <==> IsBareName(fileName)
  {
    bare := Base(fileName) == fileName;
  }

  /** The encoder's rendering of each comment, appended one after the other. */
  method RenderComments(e: Encoder, comments: seq<string>) returns (commentBytes: string)
    ensures commentBytes == Header(e.encodeComment, comments)
  {
    commentBytes := "";
    for i := 0 to |comments|
      invariant commentBytes == Header(e.encodeComment, comments[..i])
    {
      assert comments[..i + 1] == comments[..i] + [comments[i]];
      HeaderAppend(e.encodeComment, comments[..i], [comments[i]]);
      commentBytes := commentBytes + e.encodeComment(comments[i]);
    }
    assert comments[..|comments|] == comments;
  }

  /**
   * A completed write pass leaves the same content at every target whatever
   * the filesystem held before: writing one pool twice gives identical files.
   */
  lemma FlushIsDeterministic(outputDir: string, staged: map<string, string>,
                             before1: map<string, string>, after1: map<string, string>,
                             before2: map<string, string>, after2: map<string, string>)
    requires Flushed(outputDir, staged, staged.Keys, before1, after1)
    requires Flushed(outputDir, staged, staged.Keys, before2, after2)
    ensures forall t :: t in Targets(outputDir, staged.Keys) ==> t in after1 && t in after2 && after1[t] == after2[t]
  {
  }

  /**
   * In a pool whose first top-level comment is the provenance marker, every
   * staged file starts with the encoder's rendering of that marker.
   */
  lemma ProvenanceMarkerLeads(render: string -> string, comments: seq<string>, body: string)
    requires comments != [] && comments[0] == GeneratedComment
    ensures var content := Header(render, comments) + body;
            |render(GeneratedComment)| <= |content|
            && content[..|render(GeneratedComment)|] == render(GeneratedComment)
  {
    FirstCommentLeads(render, comments, body);
  }

  /**
   * Whether the write pass can put the staged file `key` under `outputDir`
   * on a filesystem with directories `dirs`: its target is not refused and
   * no missing directory of its chain is.
   */
  ghost predicate Writable(outputDir: string, key: string, dirs: set<string>, refused: set<string>)
  {
    var out := Join([outputDir, key]);
    out !in refused && (Ancestry(Dir(out)) - dirs) !! refused
  }

  /** Adding directories that are not refused changes no file's writability. */
  lemma WritableFrame(outputDir: string, key: string, dirs: set<string>, more: set<string>, refused: set<string>)
    requires dirs <= more && (more - dirs) !! refused
    ensures Writable(outputDir, key, dirs, refused) <==> Writable(outputDir, key, more, refused)
  {
    var chain := Ancestry(Dir(Join([outputDir, key])));
    assert (chain - dirs) * refused == (chain - more) * refused;
  }

  /**
   * One step of the write pass: creates the directory of `outputDir/file`
   * and writes `content` there. On success the file holds `content` and its
   * directory chain exists; on failure no file changed, some of that chain
   * may have been created, and the error names the directory or the file
   * the filesystem refused.
   */
  method WriteEntry(outputDir: string, file: string, content: string, fs: FileSystem) returns (result: Outcome)
    modifies fs
    ensures var out := Join([outputDir, file]);
            && (result.Pass? ==> fs.files == old(fs.files)[out := content]
                                 && fs.dirs == old(fs.dirs) + Ancestry(Dir(out)))
            && (result.Fail? ==> fs.files == old(fs.files)
                                 && old(fs.dirs) <= fs.dirs <= old(fs.dirs) + Ancestry(Dir(out)))
            && (result.Fail? ==> (result.error == DirectoryCreationFailure(Dir(out))
                                  && !((Ancestry(Dir(out)) - fs.dirs) !! fs.refused))
                                 || (result.error == FileWriteFailure(out) && out in fs.refused))
    ensures result.Pass? <==> Writable(outputDir, file, old(fs.dirs), fs.refused)
    ensures (fs.dirs - old(fs.dirs)) !! fs.refused
  {
    var out := Join([outputDir, file]);
    var ok := fs.MkdirAll(Dir(out));
    if !ok {
      return Fail(DirectoryCreationFailure(Dir(out)));
    }
    ok := fs.WriteFile(out, content);
    if !ok {
      return Fail(FileWriteFailure(out));
    }
    result := Pass;
  }

  class FilePool {
    /** The directory, as path elements, under which files are added. */
    var path: seq<string>
    /** Staged content by output path. A nil map in Go reads as this empty map. */
    var m: map<string, string>
    /** Comments rendered at the top of every added file, in registration order. */
    var topLevelComments: seq<string>

    /** `key` is the pool path joined with a bare file name, as `Add` builds output paths. */
    ghost predicate IsOutputPath(key: string)
      reads this
    {
      exists name :: IsBareName(name) && key == Join(path + [name])
    }

    /** Every staged output path is the pool path joined with a bare file name, and so is not empty. */
    ghost predicate Valid()
      reads this
    {
      && "" !in m
      && forall k :: k in m ==> IsOutputPath(k)
    }

    constructor (path: seq<string>, topLevelComments: seq<string>)
      ensures Valid()
      ensures this.path == path && this.topLevelComments == topLevelComments && m == map[]
    {
      this.path := path;
      this.topLevelComments := topLevelComments;
      m := map[];
    }

    /**
     * Stages the content `e` yields under `fileName` at the current path.
     * Fails, staging nothing, on a name that is not bare, on a stream that
     * cannot be read, and on an output path staged before, whatever the
     * content staged there.
     */
    method Add(fileName: string, e: Encoder) returns (result: Outcome)
      requires Valid()
      modifies this
      ensures Valid()
      ensures path == old(path) && topLevelComments == old(topLevelComments)
      ensures !IsBareName(fileName) ==> result == Fail(InvalidFileName(fileName))
      ensures IsBareName(fileName) && e.stream.ReadFailed? ==> result == Fail(EncodingFailure(e.stream.reason))
      ensures IsBareName(fileName) && e.stream.Drained? && Join(path + [fileName]) in old(m)
              ==> result == Fail(FilenameClash(Join(path + [fileName])))
      ensures result.Fail? ==> m == old(m)
      ensures result.Pass? <==> IsBareName(fileName) && e.stream.Drained? && Join(path + [fileName]) !in old(m)
      ensures result.Pass? ==> m == old(m)[Join(path + [fileName]) := Header(e.encodeComment, topLevelComments) + e.stream.bytes]
      ensures result.Pass? && topLevelComments == [] ==> m[Join(path + [fileName])] == e.stream.bytes
    {
      var bare := CheckFileName(fileName);
      if !bare {
        return Fail(InvalidFileName(fileName));
      }
      if e.stream.ReadFailed? {
        return Fail(EncodingFailure(e.stream.reason));
      }
      var b := e.stream.bytes;
      if |topLevelComments| > 0 {
        var commentBytes := RenderComments(e, topLevelComments);
        b := commentBytes + b;
      } else {
        assert Header(e.encodeComment, topLevelComments) + b == b;
      }
      var output := Join(path + [fileName]);
      if output in m {
        return Fail(FilenameClash(output));
      }
      assert (path + [fileName])[|path|] == fileName;
      assert IsBareName(fileName) && output == Join(path + [fileName]);
      m := m[output := b];
      result := Pass;
    }

    /**
     * The write pass: for each staged entry, in no particular order, creates
     * the directory of `outputDir/key` and writes the content there,
     * replacing what was on disk. Stops at the first failure; `flushed` is
     * the set of entries written until then.
     */
    method Write(outputDir: string, fs: FileSystem) returns (result: Outcome, ghost flushed: set<string>)
      requires Valid()
      modifies fs
      ensures flushed <= m.Keys
      ensures result.Pass? <==> flushed == m.Keys
      ensures Flushed(outputDir, m, flushed, old(fs.files), fs.files)
      ensures forall k :: k in flushed ==> Ancestry(Dir(Join([outputDir, k]))) <= fs.dirs
      ensures old(fs.dirs) <= fs.dirs
      ensures forall d :: d in fs.dirs ==> d in old(fs.dirs) || exists k :: k in m && d in Ancestry(Dir(Join([outputDir, k])))
      ensures result.Fail? ==>
                exists k :: (k in m.Keys - flushed &&
                             (result.error == DirectoryCreationFailure(Dir(Join([outputDir, k])))
                              || result.error == FileWriteFailure(Join([outputDir, k]))))
      ensures result.Fail? && result.error.DirectoryCreationFailure? ==> !((Ancestry(result.error.dir) - fs.dirs) !! fs.refused)
      ensures result.Fail? && result.error.FileWriteFailure? ==> result.error.file in fs.refused
      ensures result.Pass? <==> forall k :: k in m ==> Writable(outputDir, k, old(fs.dirs), fs.refused)
      ensures (fs.dirs - old(fs.dirs)) !! fs.refused
    {
      var remaining := m.Keys;
      flushed := {};
      while remaining != {}
        invariant remaining <= m.Keys && flushed == m.Keys - remaining
        invariant Flushed(outputDir, m, flushed, old(fs.files), fs.files)
        invariant old(fs.dirs) <= fs.dirs
        invariant (fs.dirs - old(fs.dirs)) !! fs.refused
        invariant forall k :: k in flushed ==> Writable(outputDir, k, old(fs.dirs), fs.refused)
        invariant forall d :: d in fs.dirs ==> d in old(fs.dirs) || exists k :: k in m && d in Ancestry(Dir(Join([outputDir, k])))
        invariant forall k :: k in flushed ==> Ancestry(Dir(Join([outputDir, k]))) <= fs.dirs
        decreases remaining
      {
        var file :| file in remaining;
        FlushedStep(outputDir, m, flushed, old(fs.files), fs.files, file);
        WritableFrame(outputDir, file, old(fs.dirs), fs.dirs, fs.refused);
        result := WriteEntry(outputDir, file, m[file], fs);
        if result.Fail? {
          assert file in m.Keys - flushed;
          return result, flushed;
        }
        remaining := remaining - {file};
        flushed := flushed + {file};
      }
      result := Pass;
    }
  }

  /**
   * A pool rooted at a/b with one top-level comment "GEN" rendered as a YAML
   * comment: the first add of x.yaml is staged under a/b/x.yaml with the
   * comment in front, the second clashes and changes nothing.
   */
  method StagingScenario() returns (pool: FilePool, first: Outcome, second: Outcome)
    ensures first == Pass && second == Fail(FilenameClash("a/b/x.yaml"))
    ensures pool.Valid() && pool.m == map["a/b/x.yaml" := "# GEN\nk: v"]
  {
    var yamlComment := (c: string) => "# " + c + "\n";
    pool := new FilePool(["a", "b"], ["GEN"]);
    assert IsBareName("x.yaml");
    assert Join(["a", "b"] + ["x.yaml"]) == "a/b/x.yaml" by {
      assert Join(["a"]) == "a";
      assert ["a"] + ["b"] == ["a", "b"];
      JoinSnoc(["a"], "b");
      JoinSnoc(["a", "b"], "x.yaml");
    }
    assert Header(yamlComment, ["GEN"]) == "# GEN\n" by {
      assert ["GEN"][1..] == [];
    }

    first := pool.Add("x.yaml", Encoder(Drained("k: v"), yamlComment));
    assert "# GEN\n" + "k: v" == "# GEN\nk: v";

    second := pool.Add("x.yaml", Encoder(Drained("k: w"), yamlComment));
  }

  /** The scenario's staged file, written under /out, is the single file /out/a/b/x.yaml. */
  lemma ScenarioFiles(staged: map<string, string>, files: map<string, string>)
    requires staged == map["a/b/x.yaml" := "# GEN\nk: v"]
    requires files.Keys == Targets("/out", staged.Keys)
    requires forall k :: k in staged ==> Join(["/out", k]) in files && files[Join(["/out", k])] == staged[k]
    ensures files == map["/out/a/b/x.yaml" := "# GEN\nk: v"]
  {
    assert Join(["/out", "a/b/x.yaml"]) == "/out/a/b/x.yaml";
    assert Targets("/out", staged.Keys) == {"/out/a/b/x.yaml"};
  }

  /**
   * Writing a pool to an empty filesystem that refuses nothing succeeds and
   * leaves exactly the staged files, each at its target with its staged
   * content and inside its directory chain.
   */
  method WriteToEmptyDisk(pool: FilePool, outputDir: string) returns (fs: FileSystem, r: Outcome)
    requires pool.Valid()
    ensures r == Pass
    ensures fs.files.Keys == Targets(outputDir, pool.m.Keys)
    ensures forall k :: k in pool.m ==> Join([outputDir, k]) in fs.files && fs.files[Join([outputDir, k])] == pool.m[k]
    ensures forall k :: k in pool.m ==> Ancestry(Dir(Join([outputDir, k]))) <= fs.dirs
  {
    fs := new FileSystem(map[], {}, {});
    ghost var flushed;
    r, flushed := pool.Write(outputDir, fs);
  }

  /**
   * Writing the staged pool under /out to an empty filesystem that refuses
   * nothing succeeds and leaves exactly /out/a/b/x.yaml with the staged
   * content.
   */
  method WriteScenario() returns (fs: FileSystem, r: Outcome)
    ensures r == Pass
    ensures fs.files == map["/out/a/b/x.yaml" := "# GEN\nk: v"]
  {
    var pool, _, _ := StagingScenario();
    fs, r := WriteToEmptyDisk(pool, "/out");
    ScenarioFiles(pool.m, fs.files);
  }
}

=== FILE: paths.dfy ===
/**
 * Slash-separated path handling as the file pool uses it: Go's
 * `filepath.Base` (the bare-name check), `filepath.Join` (the output key)
 * and `filepath.Dir` (the directory the write pass creates), on a platform
 * whose only separator is '/' and which has no volume names.
 *
 * `filepath.Clean`, which Go applies to the results of `Join` and `Dir`, is
 * not modelled: repeated separators and "." / ".." elements are kept as
 * written.
 */
module Paths {

  const Separator: char := '/'

  /** The names `Base` leaves unchanged: a single non-empty element, or the root. */
  predicate IsBareName(name: string) {
    name == [Separator] || (name != "" && Separator !in name)
  }

  /** `path` with every trailing separator removed (the first loop of `Base`). */
  function TrimTrailingSeparators(path: string): (r: string)
    ensures |r| <= |path| && r == path[..|r|]
    ensures r == "" || r[|r| - 1] != Separator
    ensures forall j :: |r| <= j < |path| ==> path[j] == Separator
  {
    if path != "" && path[|path| - 1] == Separator then
      TrimTrailingSeparators(path[..|path| - 1])
    else
      path
  }

  /** Index of the last separator in `path`, or -1 when it holds none. */
  function LastSeparator(path: string): (i: int)
    ensures -1 <= i < |path|
    ensures i >= 0 ==> path[i] == Separator
    ensures forall j :: i < j < |path| ==> path[j] != Separator
  {
    if path == "" then -1
    else if path[|path| - 1] == Separator then |path| - 1
    else LastSeparator(path[..|path| - 1])
  }

  /**
   * The last element of `path`: "." for the empty path, the root for a path
   * made only of separators, otherwise what follows the last separator once
   * trailing separators are stripped.
   */
  function Base(path: string): (r: string)
    ensures IsBareName(r)
    ensures r == path <==> IsBareName(path)
  {
    if path == "" then "."
    else
      var trimmed := TrimTrailingSeparators(path);
      var i := LastSeparator(trimmed);
      var last := trimmed[i + 1..];
      assert forall j :: 0 <= j < |last| ==> last[j] == trimmed[i + 1 + j];
      assert IsBareName(path) ==> (trimmed == path && i == -1) || path == [Separator] by {
        if Separator !in path {
          assert path[|path| - 1] in path;
          assert trimmed == path;
          assert forall k :: 0 <= k < |path| ==> path[k] in path;
        }
      }
      if last == "" then [Separator] else last
  }

  /** The elements of a non-empty list, separated by `Separator`. */
  function Interleave(elems: seq<string>): (r: string)
    requires elems != []
    ensures |elems[0]| <= |r| && r[..|elems[0]|] == elems[0]
  {
    if |elems| == 1 then elems[0]
    else Interleave(elems[..|elems| - 1]) + [Separator] + elems[|elems| - 1]
  }

  /**
   * `filepath.Join` before cleaning: leading empty elements are skipped and
   * the rest are separated by `Separator`; a list of empty elements joins to "".
   */
  function Join(elems: seq<string>): (r: string)
    ensures r == "" <==> forall i :: 0 <= i < |elems| ==> elems[i] == ""
  {
    if elems == [] then ""
    else if elems[0] == "" then Join(elems[1..])
    else Interleave(elems)
  }

  /**
   * The directory part of `path`: everything before its last separator, the
   * root when that separator is the first character, "." when there is none.
   */
  function Dir(path: string): (r: string)
    ensures LastSeparator(path) < 0 ==> r == "."
    ensures LastSeparator(path) == 0 ==> r == [Separator]
    ensures 0 < LastSeparator(path) ==> |r| < |path| && path[..|r| + 1] == r + [Separator]
                                        && Separator !in path[|r| + 1..]
  {
    var i := LastSeparator(path);
    if i < 0 then "." else if i == 0 then [Separator] else path[..i]
  }

  /** `dir` and every directory above it that `os.MkdirAll` would create. */
  function Ancestry(dir: string): (r: set<string>)
    ensures dir in r
    ensures forall i :: 0 < i < |dir| && dir[i] == Separator ==> dir[..i] in r
    ensures forall d :: d in r ==> |d| <= |dir| && d == dir[..|d|]
    ensures forall d :: d in r ==> d == dir || (0 < |d| < |dir| && dir[|d|] == Separator)
  {
    {dir} + set i | 0 < i < |dir| && dir[i] == Separator :: dir[..i]
  }

  /** Appending a non-empty element adds exactly one separator and that element. */
  lemma {:induction false} JoinSnoc(elems: seq<string>, name: string)
    requires name != ""
    ensures Join(elems + [name]) == if Join(elems) == "" then name else Join(elems) + [Separator] + name
  {
    if elems == [] {
      assert elems + [name] == [name];
    } else if elems[0] == "" {
      assert (elems + [name])[1..] == elems[1..] + [name];
      JoinSnoc(elems[1..], name);
    } else {
      assert (elems + [name])[..|elems|] == elems;
    }
  }

  /** Under one prefix, non-empty last elements join to the same path only when they are equal. */
  lemma JoinInjective(elems: seq<string>, a: string, b: string)
    requires a != "" && b != ""
    ensures Join(elems + [a]) == Join(elems + [b]) <==> a == b
  {
    JoinSnoc(elems, a);
    JoinSnoc(elems, b);
    var prefix := Join(elems);
    if prefix != "" {
      assert (prefix + [Separator] + a)[|prefix| + 1..] == a;
      assert (prefix + [Separator] + b)[|prefix| + 1..] == b;
    }
  }

  /** The last separator of `prefix + "/" + name` is the one just before `name`. */
  lemma {:induction false} LastSeparatorBeforeName(prefix: string, name: string)
    requires Separator !in name
    ensures LastSeparator(prefix + [Separator] + name) == |prefix|
  {
    var path := prefix + [Separator] + name;
    if name != "" {
      assert name[|name| - 1] in name;
      assert path[..|path| - 1] == prefix + [Separator] + name[..|name| - 1];
      LastSeparatorBeforeName(prefix, name[..|name| - 1]);
    }
  }

  /**
   * Joining a bare name onto any prefix and taking `Base` gives the name back,
   * and the `Dir` of the result is the joined prefix.
   */
  lemma JoinedNameSplits(elems: seq<string>, name: string)
    requires name != "" && Separator !in name
    ensures Base(Join(elems + [name])) == name
    ensures Dir(Join(elems + [name])) == if Join(elems) == "" then "." else Join(elems)
  {
    JoinSnoc(elems, name);
    var prefix := Join(elems);
    var path := Join(elems + [name]);
    assert name[|name| - 1] != Separator;
    if prefix == "" {
      assert path == name;
    } else {
      assert path == prefix + [Separator] + name;
      LastSeparatorBeforeName(prefix, name);
      assert path[|path| - 1] == name[|name| - 1];
      assert TrimTrailingSeparators(path) == path;
      assert path[|prefix| + 1..] == name;
      assert path[..|prefix|] == prefix;
    }
  }
}
